=== FILE: README.md ===
# fotema background core in Dafny

This project models three pieces of sequential logic from the fotema photo
library application.

- **Progress monitor** (`progress_monitor.rs`). This is the reducer that tracks one
  background task as `(task_name, current_count, end_count)`. It handles the
  inputs `Start`, `Advance`, `Complete` and `Idle`, and returns a "notify
  subscribers" flag from each step.
- **Preview generation worker** (`generate_previews.rs`). On `Generate` it takes a
  snapshot of the repository and keeps the pictures that have no square preview.
  For each one, in order, it asks the previewer to render a preview. A previewer
  failure skips the picture. A rendered preview is persisted with `add_preview`,
  and a persisting failure ends the batch. The worker then discards the batch's
  result and always emits `PreviewsGenerated`.
- **Property panel** (`photo_info.rs`). This is the decision logic that picks which rows show
  a value and which groups of rows are visible for a photo or a video, and
  which groups each message updates.

Files:

- `wrappers.dfy`: `Option` and `Result`.
- `paths.dfy`: `Path::parent`, `Path::file_name` and `Path::join` over a path
  written as its component sequence.
- `progress_monitor.dfy`: module `Progress`.
- `generate_previews.dfy`: module `GeneratePreviews`. A batch is a pure function
  `UpdatePreviews(repo, collaborators)` that returns a `Run`: the calls made on
  the previewer and the repository, in order, the repository afterwards, and the
  result. The previewer's and the repository's outcomes are functions of the
  record they are handed (`Collaborators`). `PreviewEachLoop` and
  `UpdatePreviewsLoop` write the same batch as the source's `for` loop, with
  `continue` and an early return, and are proved to compute exactly `UpdatePreviews`.
- `photo_info.dfy`: module `PhotoInfo`. A widget is reduced to what the panel
  sets on it: a row is `(subtitle, visible)` and a group is a visibility flag
  plus its rows. The library lookup, file metadata, EXIF and video metadata are
  the functions of an `Environment`, and they return already-formatted optional text.

Two behaviours of the code are worth stating directly:

- A failed `add_preview` ends the batch: the `?` on it
  (src/app/background/generate_previews.rs:43) returns the error at once, so
  the records after it are not previewed (`PreviewEachAbort`,
  `PreviewEachProtocol`).
- `Advance` adds one to `current_count` in every state and never clamps
  (src/app/components/progress_monitor.rs:67-69), so the count can pass
  `end_count` (`BoundsPreserved`, `AdvanceMayPassEnd`).

## Model

| member | source | states |
|---|---|---|
| `Progress.Init` | src/app/components/progress_monitor.rs:56-58 | The initial monitor is the idle state: task `Idle`, both counts 0. |
| `Progress.Reduce` | src/app/components/progress_monitor.rs:60-80 | Every input asks for a notification. `Start(t, n)` tracks task `t` with end `n` from count 0. `Advance` adds exactly one to the count, and `Complete` sets the count to the end; both keep the task and the end. `Idle` yields the idle state. |
| `Progress.Fraction` | src/app/components/progress_monitor.rs:48-50 | With a non-zero end, the fraction lies in [0, 1] exactly when the count has not passed the end, and it is 1 exactly when the count equals the end. |
| `Progress.IdleRestoresInit` | src/app/components/progress_monitor.rs:56-77 | From any state, the `Idle` input gives back exactly the initial monitor. |
| `Progress.StartForgetsHistory` | src/app/components/progress_monitor.rs:62-66 | The state after `Start(t, n)` is the same whatever state it was applied to. |
| `Progress.CompleteIdempotent` | src/app/components/progress_monitor.rs:70-72 | Completing twice gives the same state as completing once. |
| `Progress.BoundsPreserved` | src/app/components/progress_monitor.rs:60-78 | `Start`, `Complete` and `Idle` always leave the count within the end. After `Advance`, the count is within the end exactly when it was below the end before. |
| `Progress.AdvanceMayPassEnd` | src/app/components/progress_monitor.rs:67-69 | `Advance` after a zero-length `Start` gives count 1 with end 0, because nothing clamps. |
| `Progress.EveryInputNotifies` | src/app/components/progress_monitor.rs:79 | Along any sequence of inputs, one flag is returned per input and every flag is true. |
| `Progress.AdvancesAddCount` | src/app/components/progress_monitor.rs:67-69 | `n` Advances add exactly `n` to the count and leave the task and the end unchanged. |
| `Progress.StartThenAdvancesEqualsComplete` | src/app/components/progress_monitor.rs:62-72 | `Start(t, n)` followed by `n` Advances reaches `(t, n, n)`, the same state as `Start(t, n)` followed by `Complete`. |
| `Progress.TenPhotoThumbnails` | src/app/components/progress_monitor.rs:48-77 | A photo-thumbnail task of 10 steps advanced 10 times has count 10, end 10 and fraction 1. A following `Idle` resets it to the idle state. |
| `GeneratePreviews.All` | src/app/background/generate_previews.rs:29 | The snapshot read fails exactly when the repository read fails. Otherwise it is the whole catalog, in order. |
| `GeneratePreviews.WithoutPreview` | src/app/background/generate_previews.rs:31-34 | A record is kept exactly when it is in the snapshot and has no square preview. |
| `GeneratePreviews.WithoutPreviewCounts` | src/app/background/generate_previews.rs:31-34 | The filter keeps each record without a preview as many times as it occurs, and no record with a preview. |
| `GeneratePreviews.WithoutPreviewKeepsOrder` | src/app/background/generate_previews.rs:31-34 | Filtering a concatenation gives the concatenation of the filtered parts, so snapshot order is kept. |
| `GeneratePreviews.WithPreviewPath` | src/app/background/generate_previews.rs:37 | A successful `set_preview` on the record sets its preview path to the rendered path. It keeps the identity and the source path. |
| `GeneratePreviews.AddPreview` | src/app/background/generate_previews.rs:43 | The call fails exactly when the store write fails, and the error names the record's identity. On success, the catalog keeps its length, identities and source paths. Only the entries with the record's identity take its preview path. |
| `GeneratePreviews.UpdatePreviews` | src/app/background/generate_previews.rs:28-29 | A failed snapshot read returns the read error before any previewer or `add_preview` call, and the repository is unchanged. |
| `GeneratePreviews.Update` | src/app/background/generate_previews.rs:60-70 | `Generate` runs the preview batch and leaves the catalog exactly as the batch leaves it, so the catalog keeps its number of records. It emits exactly one `PreviewsGenerated`, whether the batch succeeded or failed. |
| `GeneratePreviews.PreviewEach` | src/app/background/generate_previews.rs:36-46 | The loop over the records without a preview keeps the catalog's number of records, and the only error it can return is a write error from `add_preview`. |
| `GeneratePreviews.PreviewEachOrder` | src/app/background/generate_previews.rs:36-46 | The previewer gets a prefix of the loop's records, in order and each once. It gets all of them when the loop succeeds. |
| `GeneratePreviews.PreviewEachAbort` | src/app/background/generate_previews.rs:43 | The loop fails exactly when its last call is an `add_preview` that failed. It then returns that record's write error. |
| `GeneratePreviews.PreviewEachProtocol` | src/app/background/generate_previews.rs:36-46 | Each call follows these rules. A rendered preview is followed at once by `add_preview` of the updated record. A failed preview is followed by the next record's preview or by nothing. Every `add_preview` comes right after a preview. A failed `add_preview` is the last call. |
| `GeneratePreviews.PreviewEachRepository` | src/app/background/generate_previews.rs:36-46 | The loop changes only preview paths. A record whose identity no `add_preview` succeeded for is left exactly as it was. A record ends without a preview exactly when it had none and no `add_preview` for its identity succeeded. |
| `GeneratePreviews.PreviewEachStoresRendered` | src/app/background/generate_previews.rs:37-43 | A record whose identity was persisted holds the path the previewer rendered for one of the loop's records with that identity. Nothing else about it changes. |
| `GeneratePreviews.PreviewEachCovers` | src/app/background/generate_previews.rs:37-43 | When the loop succeeds, the preview of every record that rendered was persisted. |
| `GeneratePreviews.PreviewEachPersistsOnlyRendered` | src/app/background/generate_previews.rs:37-43 | Every persisted identity belongs to a record whose preview rendered. |
| `GeneratePreviews.UpdatePreviewsTrace` | src/app/background/generate_previews.rs:28-47 | The previewer gets only records that had no preview in the snapshot, as a prefix of the filtered snapshot, and all of them on success. The calls follow the loop protocol. The batch fails exactly when the read failed, with no calls, or when the last call is a failed `add_preview`. |
| `GeneratePreviews.UpdatePreviewsCoverage` | src/app/background/generate_previews.rs:28-47 | Identities and source paths never change, and a record that had a preview keeps one. After a successful batch, every record that had no preview and whose preview rendered has one. In a catalog with distinct identities, a record that had a preview is left exactly as it was (lines 31-34). A record whose identity was persisted holds exactly the path the previewer rendered for it. After a successful batch, this holds for every record that lacked a preview and rendered. |
| `GeneratePreviews.GenerateCoverage` | src/app/background/generate_previews.rs:60-70 | After `Generate`, no record loses its preview, identities and source paths are unchanged, and, when the batch did not fail, every record that lacked a preview and whose preview rendered has one. In a catalog with distinct identities, a record that had a preview is left exactly as it was. When the batch did not fail, every record that lacked a preview and rendered holds exactly the rendered path. |
| `GeneratePreviews.FailuresStayIsolated` | src/app/background/generate_previews.rs:37-43 | This holds when the read and every write succeed and identities are distinct. The batch then succeeds and previews every record that lacked one. Afterwards a record lacks a preview exactly when it lacked one before and its own preview failed. |
| `GeneratePreviews.SuccessLeavesOnlyFailures` | src/app/background/generate_previews.rs:31-47 | After a successful batch, a record still without a preview is unchanged, and its preview failed during the batch. |
| `GeneratePreviews.SecondRunRetriesOnlyFailures` | src/app/background/generate_previews.rs:31-47 | A second batch over what a successful batch left behind hands the previewer only records whose preview failed the first time. |
| `GeneratePreviews.SecondRunIdleWhenAllRendered` | src/app/background/generate_previews.rs:31-47 | If the first batch succeeded and rendered every missing preview, a second batch makes no call at all. |
| `GeneratePreviews.FirstCallHasTarget` | src/app/background/generate_previews.rs:36-37 | A batch that makes any call starts by handing a record to the previewer. |
| `GeneratePreviews.TwoOfThreeMissing` | src/app/background/generate_previews.rs:28-47 | Take three records, two without a preview, whose previews render and persist. The previewer and `add_preview` each run exactly twice, on exactly those two records, in order. |
| `GeneratePreviews.PreviewEachLoop` | src/app/background/generate_previews.rs:36-46 | The `for` loop, with `continue` on a previewer failure and an early return on a write failure, computes exactly the calls, repository and result of `PreviewEach`. |
| `GeneratePreviews.UpdatePreviewsLoop` | src/app/background/generate_previews.rs:28-48 | `update_previews` as written (read, filter, loop) computes exactly `UpdatePreviews`. |
| `Paths.Parent` | src/app/components/photo_info.rs:427 | A parent exists exactly when the path is non-empty and does not end in a root or prefix. The parent plus the last component is the path. |
| `Paths.FileName` | src/app/components/photo_info.rs:428 | A file name exists exactly when the last component is a normal name, and it is that name. |
| `Paths.JoinSplits` | src/app/components/photo_info.rs:426-431 | Joining a name onto a path and then splitting the result gives back the path as parent and the name as file name. |
| `PhotoInfo.UpdateRow` | src/app/components/photo_info.rs:411-424 | The row is shown, and the call returns true, exactly when a value is present. The subtitle becomes the value, or the en-dash fallback when there is none. |
| `PhotoInfo.UpdateRows` | src/app/components/photo_info.rs:308-313 | Every row is updated, not only up to the first shown one. The aggregate is true exactly when some value is present, which is exactly when some row is visible. |
| `PhotoInfo.FolderName` | src/app/components/photo_info.rs:426-431 | A name is returned exactly when the path has a parent whose last component is a normal name, and it is that name. |
| `PhotoInfo.FolderOfJoinedFile` | src/app/components/photo_info.rs:426-431 | The folder name of a file inside a directory is the directory's own name. |
| `PhotoInfo.UpdateFileDetails` | src/app/components/photo_info.rs:279-318 | Without a path nothing changes. Otherwise the folder row shows the folder name. If the metadata read fails, the date/time group is left alone. Otherwise the created and modified rows each show their own timestamp or the fallback, and the group is visible exactly when a timestamp is present, which is exactly when one of its rows is visible. No other group changes. |
| `PhotoInfo.ImageSizeText` | src/app/components/photo_info.rs:331 | The size text is the width's digits, then " x ", then the height's digits. Each part reads back as its dimension. |
| `PhotoInfo.ExifCreatedAt` | src/app/components/photo_info.rs:343-349 | The EXIF creation date is present only when the EXIF block is readable and parses. When it parses, the date is the parsed creation time. |
| `PhotoInfo.ExifModifiedAt` | src/app/components/photo_info.rs:343-354 | The EXIF modification date is present only when the EXIF block is readable and parses. When it parses, the date is the parsed modification time. |
| `PhotoInfo.UpdatePhotoDetails` | src/app/components/photo_info.rs:320-369 | Without a picture path or readable metadata nothing changes. Otherwise the image group is always visible, with the "W x H" size row, the format row showing the format name or the fallback, and the file-size row showing the formatted size. With a readable EXIF block, the two EXIF rows each show their own parsed date or the fallback, and the group is visible exactly when one of them is. Without a readable block, the EXIF group is hidden and its rows are left as they were. |
| `PhotoInfo.UpdateVideoDetails` | src/app/components/photo_info.rs:371-409 | Without a video path nothing changes. Otherwise, with readable metadata the created, duration and container rows each show their own field or the fallback; without it all three show the hidden fallback. The group is visible exactly when one of those fields is present, which is exactly when one of those rows is visible. The video file-size row and the other groups are untouched. |
| `PhotoInfo.Update` | src/app/components/photo_info.rs:233-271 | An unknown item changes nothing. For a known item, the folder row and the date/time group are always those the file-details update gives. When the item has a video, the video group is the one the video-details update gives. A photo message whose item has a picture sets the image and EXIF groups to those the photo-details update gives for the message's image info. Without a picture, it leaves them untouched. A video message hides the image and EXIF groups and leaves their rows alone. Without a video, the video group is untouched. |
| `PhotoInfo.Decimal` | src/app/components/photo_info.rs:331 | A dimension renders as a non-empty string of digits with no leading zero. |
| `PhotoInfo.DecimalRoundTrip` | src/app/components/photo_info.rs:331 | The rendered digits read back as the number they came from. |

## Left out

- `Progress.Fraction`: is defined only for `end_count > 0`. The source divides two `f64`s and yields NaN or infinity when `end_count` is 0, and floating point is not modelled. The fraction is a real number here.
- Counts are unbounded `nat`s. The overflow of `current_count += 1` on `usize` is not modelled.
- The `Arc<Mutex<Repository>>` locking and the relm4 worker thread are not modelled. A batch runs sequentially, and no other writer interleaves between its calls.
- `Worker::init` only stores its three collaborators and is not modelled. The unused `scan` field is not modelled either.
- Logging (`println!`) is not modelled.
- `Previewer::set_preview`, `Repository::all` and `Repository::add_preview` are foreign code, so each is an outcome function of the record it receives. The model assumes these points:
  - A successful `set_preview` sets the record's preview path to `Some` and changes nothing else.
  - `add_preview` persists only the preview path, on every entry with the record's identity.
  - A failed call changes nothing.
  - Outcomes do not depend on time or on earlier calls.
- `GeneratePreviews.UpdatePreviewsCoverage`: the exact-value clauses, and the same clauses of `GenerateCoverage`, hold for catalogs with distinct identities. `add_preview` writes every entry with the record's identity, so with a duplicate identity one record's preview path also lands on the other. The catalog's identities are its primary key, and that key is not modelled.
- `GeneratePreviews.StorageError`: the source returns one opaque `photos_core` error. The model splits it into `ReadFailed` and `WriteFailed(id)` only so that contracts can say which call failed.
- The property panel's `view!` macro, widget construction and the initial widget state are not modelled. The panel is given as an arbitrary current state.
- `Library::get`, `Visual::path`, `File::open` and `metadata`, glycin's `ImageInfo` and EXIF reading, `photo::Metadata::from` and `video::Metadata::from` are foreign code. Their results enter the model only as the `Environment`'s optional values.
- Date formatting with chrono, `humansize::format_size` and `Duration::to_string` are not modelled. The values they produce are opaque strings.
- The `Err(String)` messages of the three details updates become the two `DetailsError` cases. `update` ignores those errors, and so does the model.
- Paths are given as the component sequence that `Path::components` yields, so component normalisation is not modelled. `to_string_lossy` is not modelled either: names are already strings.
- Item identities are only tested for presence, so their values are not modelled.

=== FILE: generate_previews.dfy ===
/** The preview-generation worker of `generate_previews.rs`. The repository
    lock and the worker thread are dropped: one batch runs sequentially. The
    previewer and the repository are foreign code, so each is an outcome
    function of the record it is handed. */
module GeneratePreviews {
  import opened Wrappers

  type PictureId = nat

  /** A catalog record. */
  datatype Picture = Picture(pictureId: PictureId, path: string, squarePreviewPath: Option<string>)

  /** The catalog, in the order in which `Repository::all` lists it. */
  type Repository = seq<Picture>

  datatype PreviewError = SourceUnreadable | DecodeFailed | CacheWriteFailed

  /** The errors that can escape a batch: the snapshot could not be read, or
      persisting the preview of one record failed. */
  datatype StorageError = ReadFailed | WriteFailed(pictureId: PictureId)

  /** The outcomes of the foreign calls. `setPreview` yields the path of the
      rendered preview or an error; `addPreviewFails` says whether persisting
      a record fails. */
  datatype Collaborators = Collaborators(
    allFails: bool,
    setPreview: Picture -> Result<string, PreviewError>,
    addPreviewFails: Picture -> bool)

  /** One call the batch makes on a collaborator, with its argument. */
  datatype Call = SetPreviewOn(target: Picture) | AddPreviewOf(record: Picture)

  /** What one batch did: its calls in order, the repository afterwards, and
      its result. */
  datatype Run = Run(calls: seq<Call>, repo: Repository, result: Result<(), StorageError>)

  datatype GeneratePreviewsInput = Generate

  datatype GeneratePreviewsOutput = PreviewsGenerated

  /** `Repository::all`: a snapshot of every record, or a read error. */
  function All(repo: Repository, env: Collaborators): (r: Result<seq<Picture>, StorageError>)
    ensures r.Failure? <==> env.allFails
    ensures r.Success? ==> r.value == repo
  {
    if env.allFails then Failure(ReadFailed) else Success(repo)
  }

  /** The records of a snapshot that still lack a square preview, in order. */
  function WithoutPreview(s: seq<Picture>): (r: seq<Picture>)
    ensures forall p :: p in r <==> p in s && p.squarePreviewPath.None?
  {
    if s == [] then []
    else (if s[0].squarePreviewPath.None? then [s[0]] else []) + WithoutPreview(s[1..])
  }

  /** The filter keeps every record without a preview as often as it occurs,
      and no other. */
  lemma {:induction false} WithoutPreviewCounts(s: seq<Picture>)
    ensures forall p :: multiset(WithoutPreview(s))[p] == if p.squarePreviewPath.None? then multiset(s)[p] else 0
    decreases |s|
  {
    if s != [] {
      WithoutPreviewCounts(s[1..]);
      assert s == [s[0]] + s[1..];
    }
  }

  /** The filter keeps the snapshot's order: filtering a concatenation
      concatenates the filtered parts. */
  lemma {:induction false} WithoutPreviewKeepsOrder(a: seq<Picture>, b: seq<Picture>)
    ensures WithoutPreview(a + b) == WithoutPreview(a) + WithoutPreview(b)
    decreases |a|
  {
    if a != [] {
      WithoutPreviewKeepsOrder(a[1..], b);
      assert (a + b)[1..] == a[1..] + b;
    } else {
      assert a + b == b;
    }
  }

  /** The record as a successful `set_preview` leaves it. */
  function WithPreviewPath(p: Picture, path: string): (r: Picture)
    ensures r.pictureId == p.pictureId && r.path == p.path
    ensures r.squarePreviewPath == Some(path)
  {
    p.(squarePreviewPath := Some(path))
  }

  /** `Repository::add_preview`: stores the record's preview path on the
      catalog entry with the record's identity, or fails without changing
      anything. */
  function AddPreview(repo: Repository, record: Picture, env: Collaborators): (r: Result<Repository, StorageError>)
    ensures r.Failure? <==> env.addPreviewFails(record)
    ensures r.Failure? ==> r.error == WriteFailed(record.pictureId)
    ensures r.Success? ==> |r.value| == |repo|
    ensures r.Success? ==> forall i | 0 <= i < |repo| ::
              && r.value[i].pictureId == repo[i].pictureId
              && r.value[i].path == repo[i].path
              && r.value[i].squarePreviewPath ==
                   if repo[i].pictureId == record.pictureId then record.squarePreviewPath
                   else repo[i].squarePreviewPath
  {
    if env.addPreviewFails(record) then Failure(WriteFailed(record.pictureId))
    else
      Success(seq(|repo|, i requires 0 <= i < |repo| =>
        if repo[i].pictureId == record.pictureId
        then repo[i].(squarePreviewPath := record.squarePreviewPath)
        else repo[i]))
  }

  /** The body of the batch loop, run over `pics` in order: a previewer
      failure skips the record; a persisting failure ends the batch. */
  function PreviewEach(pics: seq<Picture>, repo: Repository, env: Collaborators): (r: Run)
    ensures |r.repo| == |repo|
    ensures r.result.Failure? ==> r.result.error.WriteFailed?
    decreases |pics|
  {
    if pics == [] then Run([], repo, Success(()))
    else
      var pic := pics[0];
      match env.setPreview(pic)
      case Failure(_) =>
        var rest := PreviewEach(pics[1..], repo, env);
        Run([SetPreviewOn(pic)] + rest.calls, rest.repo, rest.result)
      case Success(path) =>
        var updated := WithPreviewPath(pic, path);
        match AddPreview(repo, updated, env)
        case Failure(e) => Run([SetPreviewOn(pic), AddPreviewOf(updated)], repo, Failure(e))
        case Success(repo') =>
          var rest := PreviewEach(pics[1..], repo', env);
          Run([SetPreviewOn(pic), AddPreviewOf(updated)] + rest.calls, rest.repo, rest.result)
  }

  /** `GeneratePreviews::update_previews`: snapshot the catalog, keep the
      records without a preview, and preview each of them. */
  function UpdatePreviews(repo: Repository, env: Collaborators): (r: Run)
    ensures env.allFails ==> r == Run([], repo, Failure(ReadFailed))
  {
    match All(repo, env)
    case Failure(e) => Run([], repo, Failure(e))
    case Success(snapshot) => PreviewEach(WithoutPreview(snapshot), repo, env)
  }

  /** `Worker::update`: run the batch, discard its result, and emit one
      completion output. Returns the outputs and the repository afterwards. */
  function Update(msg: GeneratePreviewsInput, repo: Repository, env: Collaborators)
    : (r: (seq<GeneratePreviewsOutput>, Repository))
    ensures r.0 == [PreviewsGenerated]
    ensures |r.1| == |repo|
    ensures r.1 == UpdatePreviews(repo, env).repo
  {
    match msg
    case Generate =>
      var run := UpdatePreviews(repo, env);
      PreviewEachRepository(WithoutPreview(repo), repo, env);
      ([PreviewsGenerated], run.repo)
  }

  // ---------------------------------------------------------------------
  // Reading a trace

  /** The records handed to the previewer, in call order. */
  function Targets(calls: seq<Call>): seq<Picture>
    decreases |calls|
  {
    if calls == [] then []
    else (if calls[0].SetPreviewOn? then [calls[0].target] else []) + Targets(calls[1..])
  }

  /** Identities whose preview `add_preview` persisted. */
  function PersistedIds(calls: seq<Call>, env: Collaborators): set<PictureId>
    decreases |calls|
  {
    if calls == [] then {}
    else
      (if calls[0].AddPreviewOf? && !env.addPreviewFails(calls[0].record)
       then {calls[0].record.pictureId} else {})
      + PersistedIds(calls[1..], env)
  }

  /** The local protocol of the loop at call `i`: a successful preview is
      followed at once by persisting the updated record; a failed preview by
      the next record's preview or by nothing; a persist follows a preview,
      and a failed persist is the last call. */
  predicate StepFollowsProtocol(calls: seq<Call>, i: nat, env: Collaborators)
    requires i < |calls|
  {
    match calls[i]
    case SetPreviewOn(p) =>
      (match env.setPreview(p)
       case Success(path) => i + 1 < |calls| && calls[i + 1] == AddPreviewOf(WithPreviewPath(p, path))
       case Failure(_) => i + 1 == |calls| || calls[i + 1].SetPreviewOn?)
    case AddPreviewOf(q) =>
      0 < i && calls[i - 1].SetPreviewOn? && (env.addPreviewFails(q) ==> i + 1 == |calls|)
  }

  predicate FollowsProtocol(calls: seq<Call>, env: Collaborators) {
    forall i | 0 <= i < |calls| :: StepFollowsProtocol(calls, i, env)
  }

  /** The trace ends with a persist that failed. */
  predicate AbortedOnWrite(calls: seq<Call>, env: Collaborators) {
    |calls| > 0 && calls[|calls| - 1].AddPreviewOf? && env.addPreviewFails(calls[|calls| - 1].record)
  }

  // ---------------------------------------------------------------------
  // The loop

  /** The loop hands the previewer a prefix of its records, in order, each
      once, and all of them when it reaches the end. */
  lemma {:induction false} PreviewEachOrder(pics: seq<Picture>, repo: Repository, env: Collaborators)
    ensures var r := PreviewEach(pics, repo, env);
            && |Targets(r.calls)| <= |pics|
            && Targets(r.calls) == pics[..|Targets(r.calls)|]
            && (r.result.Success? ==> Targets(r.calls) == pics)
    decreases |pics|
  {
    if pics != [] {
      var pic := pics[0];
      var r := PreviewEach(pics, repo, env);
      match env.setPreview(pic)
      case Failure(_) =>
        var rest := PreviewEach(pics[1..], repo, env);
        PreviewEachOrder(pics[1..], repo, env);
        assert Targets(r.calls) == [pic] + Targets(rest.calls) && r.result == rest.result by {
          var calls := [SetPreviewOn(pic)] + rest.calls;
          assert r == Run(calls, rest.repo, rest.result);
          assert calls[1..] == rest.calls;
        }
        PrefixCons(pics, Targets(rest.calls));
      case Success(path) =>
        var updated := WithPreviewPath(pic, path);
        match AddPreview(repo, updated, env)
        case Failure(e) =>
          assert Targets(r.calls) == [pic] by {
            var calls := [SetPreviewOn(pic), AddPreviewOf(updated)];
            assert r == Run(calls, repo, Failure(e));
            assert calls[1..] == [AddPreviewOf(updated)];
            assert [AddPreviewOf(updated)][1..] == [];
            assert Targets(calls[1..]) == [];
          }
          PrefixCons(pics, []);
        case Success(repo') =>
          var rest := PreviewEach(pics[1..], repo', env);
          PreviewEachOrder(pics[1..], repo', env);
          assert Targets(r.calls) == [pic] + Targets(rest.calls) && r.result == rest.result by {
            var calls := [SetPreviewOn(pic), AddPreviewOf(updated)] + rest.calls;
            assert r == Run(calls, rest.repo, rest.result);
            assert calls[1..][1..] == rest.calls;
          }
          PrefixCons(pics, Targets(rest.calls));
    }
  }

  /** A prefix of a sequence's tail, behind its head, is a prefix of the
      sequence. */
  lemma PrefixCons<T>(s: seq<T>, t: seq<T>)
    requires |s| > 0 && |t| < |s| && t == s[1..][..|t|]
    ensures [s[0]] + t == s[..|t| + 1]
    ensures |t| + 1 == |s| ==> [s[0]] + t == s
  {
  }

  /** The loop fails exactly when its last call is a persist that failed,
      and then it reports that record's identity. */
  lemma {:induction false} PreviewEachAbort(pics: seq<Picture>, repo: Repository, env: Collaborators)
    ensures var r := PreviewEach(pics, repo, env);
            && (r.result.Failure? <==> AbortedOnWrite(r.calls, env))
            && (r.result.Failure? ==> r.result.error == WriteFailed(r.calls[|r.calls| - 1].record.pictureId))
    decreases |pics|
  {
    if pics != [] {
      var pic := pics[0];
      match env.setPreview(pic)
      case Failure(_) =>
        var rest := PreviewEach(pics[1..], repo, env);
        PreviewEachAbort(pics[1..], repo, env);
      case Success(path) =>
        var updated := WithPreviewPath(pic, path);
        match AddPreview(repo, updated, env)
        case Failure(e) =>
        case Success(repo') =>
          var rest := PreviewEach(pics[1..], repo', env);
          PreviewEachAbort(pics[1..], repo', env);
    }
  }

  /** Every call of the loop follows the local protocol, and a non-empty
      trace starts with a preview call. */
  lemma {:induction false} PreviewEachProtocol(pics: seq<Picture>, repo: Repository, env: Collaborators)
    ensures var r := PreviewEach(pics, repo, env);
            && FollowsProtocol(r.calls, env)
            && (|r.calls| > 0 <==> |pics| > 0)
            && (|r.calls| > 0 ==> r.calls[0].SetPreviewOn?)
    decreases |pics|
  {
    if pics != [] {
      var pic := pics[0];
      match env.setPreview(pic)
      case Failure(_) =>
        var rest := PreviewEach(pics[1..], repo, env);
        PreviewEachProtocol(pics[1..], repo, env);
        var calls := [SetPreviewOn(pic)] + rest.calls;
        assert PreviewEach(pics, repo, env).calls == calls;
        assert FollowsProtocol(calls, env) by {
          forall i | 0 <= i < |calls| ensures StepFollowsProtocol(calls, i, env) {
            if i > 0 {
              assert StepFollowsProtocol(rest.calls, i - 1, env);
            }
          }
        }
      case Success(path) =>
        var updated := WithPreviewPath(pic, path);
        match AddPreview(repo, updated, env)
        case Failure(e) =>
          var calls := [SetPreviewOn(pic), AddPreviewOf(updated)];
          assert PreviewEach(pics, repo, env).calls == calls;
        case Success(repo') =>
          var rest := PreviewEach(pics[1..], repo', env);
          PreviewEachProtocol(pics[1..], repo', env);
          var calls := [SetPreviewOn(pic), AddPreviewOf(updated)] + rest.calls;
          assert PreviewEach(pics, repo, env).calls == calls;
          assert FollowsProtocol(calls, env) by {
            forall i | 0 <= i < |calls| ensures StepFollowsProtocol(calls, i, env) {
              if i > 1 {
                assert StepFollowsProtocol(rest.calls, i - 2, env);
              }
            }
          }
    }
  }

  /** The loop changes only preview paths; a record whose identity no persist
      succeeded for is left exactly as it was; and a record ends without a
      preview exactly when it had none and no persist for its identity
      succeeded. */
  lemma {:induction false} PreviewEachRepository(pics: seq<Picture>, repo: Repository, env: Collaborators)
    ensures var r := PreviewEach(pics, repo, env);
            && |r.repo| == |repo|
            && (forall i | 0 <= i < |repo| ::
                 && r.repo[i].pictureId == repo[i].pictureId
                 && r.repo[i].path == repo[i].path
                 && (repo[i].pictureId !in PersistedIds(r.calls, env) ==> r.repo[i] == repo[i])
                 && (r.repo[i].squarePreviewPath.None? <==>
                       repo[i].squarePreviewPath.None? && repo[i].pictureId !in PersistedIds(r.calls, env)))
    decreases |pics|
  {
    if pics != [] {
      var pic := pics[0];
      match env.setPreview(pic)
      case Failure(_) =>
        var rest := PreviewEach(pics[1..], repo, env);
        PreviewEachRepository(pics[1..], repo, env);
        var calls := [SetPreviewOn(pic)] + rest.calls;
        assert calls[1..] == rest.calls;
      case Success(path) =>
        var updated := WithPreviewPath(pic, path);
        match AddPreview(repo, updated, env)
        case Failure(e) =>
          var calls := [SetPreviewOn(pic), AddPreviewOf(updated)];
          assert calls[1..] == [AddPreviewOf(updated)];
          assert [AddPreviewOf(updated)][1..] == [];
          assert PersistedIds(calls[1..], env) == {};
        case Success(repo') =>
          var rest := PreviewEach(pics[1..], repo', env);
          PreviewEachRepository(pics[1..], repo', env);
          var calls := [SetPreviewOn(pic), AddPreviewOf(updated)] + rest.calls;
          assert calls[1..][1..] == rest.calls;
          assert PersistedIds(calls, env) == {pic.pictureId} + PersistedIds(rest.calls, env);
    }
  }

  /** A record whose identity was persisted holds the path the previewer
      rendered for one of the loop's records with that identity, and is
      otherwise unchanged. */
  lemma {:induction false} PreviewEachStoresRendered(pics: seq<Picture>, repo: Repository, env: Collaborators)
    ensures var r := PreviewEach(pics, repo, env);
            forall i | 0 <= i < |repo| && repo[i].pictureId in PersistedIds(r.calls, env) ::
              exists k | 0 <= k < |pics| ::
                && pics[k].pictureId == repo[i].pictureId
                && env.setPreview(pics[k]).Success?
                && r.repo[i] == WithPreviewPath(repo[i], env.setPreview(pics[k]).value)
    decreases |pics|
  {
    if pics != [] {
      var pic := pics[0];
      match env.setPreview(pic)
      case Failure(_) =>
        var rest := PreviewEach(pics[1..], repo, env);
        PreviewEachStoresRendered(pics[1..], repo, env);
        var calls := [SetPreviewOn(pic)] + rest.calls;
        assert calls[1..] == rest.calls;
        assert PreviewEach(pics, repo, env) == Run(calls, rest.repo, rest.result);
        forall i | 0 <= i < |repo| && repo[i].pictureId in PersistedIds(calls, env)
          ensures exists k | 0 <= k < |pics| ::
                    && pics[k].pictureId == repo[i].pictureId
                    && env.setPreview(pics[k]).Success?
                    && rest.repo[i] == WithPreviewPath(repo[i], env.setPreview(pics[k]).value)
        {
          var k :| 0 <= k < |pics[1..]|
                   && pics[1..][k].pictureId == repo[i].pictureId
                   && env.setPreview(pics[1..][k]).Success?
                   && rest.repo[i] == WithPreviewPath(repo[i], env.setPreview(pics[1..][k]).value);
          assert pics[k + 1] == pics[1..][k];
        }
      case Success(path) =>
        var updated := WithPreviewPath(pic, path);
        match AddPreview(repo, updated, env)
        case Failure(e) =>
          var calls := [SetPreviewOn(pic), AddPreviewOf(updated)];
          assert PreviewEach(pics, repo, env) == Run(calls, repo, Failure(e));
          assert PersistedIds(calls, env) == {} by {
            assert calls[1..] == [AddPreviewOf(updated)];
            assert [AddPreviewOf(updated)][1..] == [];
            assert PersistedIds(calls[1..], env) == {};
          }
        case Success(repo') =>
          var rest := PreviewEach(pics[1..], repo', env);
          PreviewEachStoresRendered(pics[1..], repo', env);
          PreviewEachRepository(pics[1..], repo', env);
          var calls := [SetPreviewOn(pic), AddPreviewOf(updated)] + rest.calls;
          assert PreviewEach(pics, repo, env) == Run(calls, rest.repo, rest.result);
          assert PersistedIds(calls, env) == {pic.pictureId} + PersistedIds(rest.calls, env) by {
            assert calls[1..][1..] == rest.calls;
          }
          forall i | 0 <= i < |repo| && repo[i].pictureId in PersistedIds(calls, env)
            ensures exists k | 0 <= k < |pics| ::
                      && pics[k].pictureId == repo[i].pictureId
                      && env.setPreview(pics[k]).Success?
                      && rest.repo[i] == WithPreviewPath(repo[i], env.setPreview(pics[k]).value)
          {
            if repo'[i].pictureId in PersistedIds(rest.calls, env) {
              var k :| 0 <= k < |pics[1..]|
                       && pics[1..][k].pictureId == repo'[i].pictureId
                       && env.setPreview(pics[1..][k]).Success?
                       && rest.repo[i] == WithPreviewPath(repo'[i], env.setPreview(pics[1..][k]).value);
              assert pics[k + 1] == pics[1..][k];
              assert WithPreviewPath(repo'[i], env.setPreview(pics[k + 1]).value)
                  == WithPreviewPath(repo[i], env.setPreview(pics[k + 1]).value);
            } else {
              assert repo[i].pictureId == pic.pictureId;
              assert rest.repo[i] == repo'[i] == WithPreviewPath(repo[i], path);
              assert pics[0] == pic;
            }
          }
    }
  }

  /** When the loop runs to the end, every record whose preview was rendered
      has had it persisted. */
  lemma {:induction false} PreviewEachCovers(pics: seq<Picture>, repo: Repository, env: Collaborators)
    ensures var r := PreviewEach(pics, repo, env);
            r.result.Success? ==>
              forall p | p in pics && env.setPreview(p).Success? :: p.pictureId in PersistedIds(r.calls, env)
    decreases |pics|
  {
    if pics != [] {
      var pic := pics[0];
      assert pics == [pic] + pics[1..];
      match env.setPreview(pic)
      case Failure(_) =>
        var rest := PreviewEach(pics[1..], repo, env);
        PreviewEachCovers(pics[1..], repo, env);
        var calls := [SetPreviewOn(pic)] + rest.calls;
        assert calls[1..] == rest.calls;
      case Success(path) =>
        var updated := WithPreviewPath(pic, path);
        match AddPreview(repo, updated, env)
        case Failure(e) =>
        case Success(repo') =>
          var rest := PreviewEach(pics[1..], repo', env);
          PreviewEachCovers(pics[1..], repo', env);
          var calls := [SetPreviewOn(pic), AddPreviewOf(updated)] + rest.calls;
          assert calls[1..][1..] == rest.calls;
          assert PersistedIds(calls, env) == {pic.pictureId} + PersistedIds(rest.calls, env);
    }
  }

  /** The identities of the records in `pics` whose preview renders. */
  ghost function RenderedIds(pics: seq<Picture>, env: Collaborators): set<PictureId> {
    set p | p in pics && env.setPreview(p).Success? :: p.pictureId
  }

  /** Every identity the loop persisted belongs to one of its records whose
      preview was rendered. */
  lemma {:induction false} PreviewEachPersistsOnlyRendered(pics: seq<Picture>, repo: Repository, env: Collaborators)
    ensures PersistedIds(PreviewEach(pics, repo, env).calls, env) <= RenderedIds(pics, env)
    decreases |pics|
  {
    if pics != [] {
      var pic := pics[0];
      assert RenderedIds(pics[1..], env) <= RenderedIds(pics, env) by {
        forall id | id in RenderedIds(pics[1..], env) ensures id in RenderedIds(pics, env) {
          var p :| p in pics[1..] && env.setPreview(p).Success? && p.pictureId == id;
          assert p in pics;
        }
      }
      match env.setPreview(pic)
      case Failure(_) =>
        var rest := PreviewEach(pics[1..], repo, env);
        PreviewEachPersistsOnlyRendered(pics[1..], repo, env);
        var calls := [SetPreviewOn(pic)] + rest.calls;
        assert calls[1..] == rest.calls;
      case Success(path) =>
        var updated := WithPreviewPath(pic, path);
        match AddPreview(repo, updated, env)
        case Failure(e) =>
          var calls := [SetPreviewOn(pic), AddPreviewOf(updated)];
          assert calls[1..] == [AddPreviewOf(updated)];
          assert [AddPreviewOf(updated)][1..] == [];
          assert PersistedIds(calls[1..], env) == {};
        case Success(repo') =>
          var rest := PreviewEach(pics[1..], repo', env);
          PreviewEachPersistsOnlyRendered(pics[1..], repo', env);
          var calls := [SetPreviewOn(pic), AddPreviewOf(updated)] + rest.calls;
          assert calls[1..][1..] == rest.calls;
          assert PersistedIds(calls, env) == {pic.pictureId} + PersistedIds(rest.calls, env);
          assert pic.pictureId in RenderedIds(pics, env);
    }
  }

  // ---------------------------------------------------------------------
  // One batch

  /** The batch hands the previewer only records that lacked a preview in
      the snapshot, in snapshot order and each once; all of them unless it
      failed; its calls follow the local protocol; and it fails exactly when
      the snapshot could not be read (then making no call at all) or its last
      call is a failed persist. */
  lemma UpdatePreviewsTrace(repo: Repository, env: Collaborators)
    ensures var r := UpdatePreviews(repo, env);
            && |Targets(r.calls)| <= |WithoutPreview(repo)|
            && Targets(r.calls) == WithoutPreview(repo)[..|Targets(r.calls)|]
            && (forall t | t in Targets(r.calls) :: t in repo && t.squarePreviewPath.None?)
            && (r.result.Success? ==> Targets(r.calls) == WithoutPreview(repo))
            && FollowsProtocol(r.calls, env)
            && (r.result.Failure? <==> env.allFails || AbortedOnWrite(r.calls, env))
            && (env.allFails ==> r.calls == [])
            && (r.calls == [] <==> Targets(r.calls) == [])
  {
    var pics := WithoutPreview(repo);
    PreviewEachOrder(pics, repo, env);
    PreviewEachProtocol(pics, repo, env);
    PreviewEachAbort(pics, repo, env);
    if env.allFails {
      assert Targets([]) == [];
    } else {
      var r := PreviewEach(pics, repo, env);
      forall t | t in Targets(r.calls) ensures t in repo && t.squarePreviewPath.None? {
        assert t in pics;
      }
    }
  }

  /** Records with distinct identities. */
  predicate UniqueIds(repo: Repository) {
    forall i, j | 0 <= i < |repo| && 0 <= j < |repo| && repo[i].pictureId == repo[j].pictureId :: i == j
  }

  /** After a batch that did not fail, every record that lacked a preview and
      whose preview was rendered has one; records that had a preview keep
      one; identities and source paths never change. In a catalog with
      distinct identities, moreover, a record that had a preview is left
      exactly as it was, and a record whose identity was persisted holds the
      path the previewer rendered for it and is otherwise unchanged. */
  lemma UpdatePreviewsCoverage(repo: Repository, env: Collaborators)
    ensures var r := UpdatePreviews(repo, env);
            && |r.repo| == |repo|
            && (forall i | 0 <= i < |repo| ::
                  && r.repo[i].pictureId == repo[i].pictureId
                  && r.repo[i].path == repo[i].path
                  && (repo[i].squarePreviewPath.Some? ==> r.repo[i].squarePreviewPath.Some?))
            && (r.result.Success? ==>
                  forall i | 0 <= i < |repo| && repo[i].squarePreviewPath.None? && env.setPreview(repo[i]).Success? ::
                    r.repo[i].squarePreviewPath.Some?)
            && (UniqueIds(repo) ==>
                  forall i | 0 <= i < |repo| && repo[i].squarePreviewPath.Some? :: r.repo[i] == repo[i])
            && (UniqueIds(repo) ==>
                  forall i | 0 <= i < |repo| && repo[i].pictureId in PersistedIds(r.calls, env) ::
                    && env.setPreview(repo[i]).Success?
                    && r.repo[i] == WithPreviewPath(repo[i], env.setPreview(repo[i]).value))
            && (UniqueIds(repo) && r.result.Success? ==>
                  forall i | 0 <= i < |repo| && repo[i].squarePreviewPath.None? && env.setPreview(repo[i]).Success? ::
                    r.repo[i] == WithPreviewPath(repo[i], env.setPreview(repo[i]).value))
  {
    var pics := WithoutPreview(repo);
    PreviewEachRepository(pics, repo, env);
    PreviewEachCovers(pics, repo, env);
    if !env.allFails {
      var r := PreviewEach(pics, repo, env);
      forall i | 0 <= i < |repo| && repo[i].squarePreviewPath.None? && env.setPreview(repo[i]).Success? && r.result.Success?
        ensures r.repo[i].squarePreviewPath.Some?
      {
        assert repo[i] in pics;
      }
      if UniqueIds(repo) {
        PreviewEachStoresRendered(pics, repo, env);
        forall i | 0 <= i < |repo| && repo[i].pictureId in PersistedIds(r.calls, env)
          ensures repo[i].squarePreviewPath.None?
          ensures env.setPreview(repo[i]).Success?
          ensures r.repo[i] == WithPreviewPath(repo[i], env.setPreview(repo[i]).value)
        {
          var k :| 0 <= k < |pics|
                   && pics[k].pictureId == repo[i].pictureId
                   && env.setPreview(pics[k]).Success?
                   && r.repo[i] == WithPreviewPath(repo[i], env.setPreview(pics[k]).value);
          assert pics[k] in pics;
          var j :| 0 <= j < |repo| && repo[j] == pics[k];
          assert j == i;
        }
        forall i | 0 <= i < |repo| && repo[i].squarePreviewPath.None? && env.setPreview(repo[i]).Success? && r.result.Success?
          ensures repo[i].pictureId in PersistedIds(r.calls, env)
        {
          assert repo[i] in pics;
        }
      }
    } else {
      assert PersistedIds([], env) == {};
    }
  }

  /** The worker's `Generate` message inherits the batch's coverage: it
      never loses a preview or changes an identity or source path, and when
      the batch it ran did not fail, every record that lacked a preview and
      whose preview rendered has one. In a catalog with distinct identities
      it leaves every record that had a preview exactly as it was, and after
      a batch that did not fail, every record that lacked one and rendered
      holds the rendered path. */
  lemma GenerateCoverage(repo: Repository, env: Collaborators)
    ensures var after := Update(Generate, repo, env).1;
            && |after| == |repo|
            && (forall i | 0 <= i < |repo| ::
                  && after[i].pictureId == repo[i].pictureId
                  && after[i].path == repo[i].path
                  && (repo[i].squarePreviewPath.Some? ==> after[i].squarePreviewPath.Some?))
            && (UpdatePreviews(repo, env).result.Success? ==>
                  forall i | 0 <= i < |repo| && repo[i].squarePreviewPath.None? && env.setPreview(repo[i]).Success? ::
                    after[i].squarePreviewPath.Some?)
            && (UniqueIds(repo) ==>
                  forall i | 0 <= i < |repo| && repo[i].squarePreviewPath.Some? :: after[i] == repo[i])
            && (UniqueIds(repo) && UpdatePreviews(repo, env).result.Success? ==>
                  forall i | 0 <= i < |repo| && repo[i].squarePreviewPath.None? && env.setPreview(repo[i]).Success? ::
                    after[i] == WithPreviewPath(repo[i], env.setPreview(repo[i]).value))
  {
    UpdatePreviewsCoverage(repo, env);
  }

  /** When the snapshot is readable and no persist fails, the batch succeeds,
      previews every record that lacked one, and afterwards a record (of a
      catalog with distinct identities) lacks a preview exactly when it lacked
      one before and the previewer failed on it: one record's failure costs
      no other record its preview. */
  lemma FailuresStayIsolated(repo: Repository, env: Collaborators)
    requires !env.allFails
    requires forall q :: !env.addPreviewFails(q)
    requires UniqueIds(repo)
    ensures var r := UpdatePreviews(repo, env);
            && r.result.Success?
            && Targets(r.calls) == WithoutPreview(repo)
            && |r.repo| == |repo|
            && forall i | 0 <= i < |repo| ::
                 r.repo[i].squarePreviewPath.None? <==>
                   repo[i].squarePreviewPath.None? && env.setPreview(repo[i]).Failure?
  {
    var pics := WithoutPreview(repo);
    var r := PreviewEach(pics, repo, env);
    PreviewEachAbort(pics, repo, env);
    PreviewEachOrder(pics, repo, env);
    PreviewEachRepository(pics, repo, env);
    PreviewEachCovers(pics, repo, env);
    PreviewEachPersistsOnlyRendered(pics, repo, env);
    forall i | 0 <= i < |repo|
      ensures r.repo[i].squarePreviewPath.None? <==>
                repo[i].squarePreviewPath.None? && env.setPreview(repo[i]).Failure?
    {
      if repo[i].squarePreviewPath.None? {
        assert repo[i] in pics;
      }
    }
  }

  /** A record that a successful batch leaves without a preview is exactly
      as it was before, and the previewer failed on it. */
  lemma SuccessLeavesOnlyFailures(repo: Repository, env: Collaborators)
    requires UpdatePreviews(repo, env).result.Success?
    ensures var r := UpdatePreviews(repo, env);
            forall i | 0 <= i < |r.repo| && r.repo[i].squarePreviewPath.None? ::
              i < |repo| && r.repo[i] == repo[i] && env.setPreview(repo[i]).Failure?
  {
    var pics := WithoutPreview(repo);
    var r := PreviewEach(pics, repo, env);
    PreviewEachRepository(pics, repo, env);
    PreviewEachCovers(pics, repo, env);
    forall i | 0 <= i < |r.repo| && r.repo[i].squarePreviewPath.None?
      ensures i < |repo| && r.repo[i] == repo[i] && env.setPreview(repo[i]).Failure?
    {
      assert repo[i] in pics;
    }
  }

  /** A second batch over the repository a successful batch left behind
      hands the previewer only records on which the first batch's previewer
      failed, whatever the collaborators do the second time. */
  lemma SecondRunRetriesOnlyFailures(repo: Repository, env1: Collaborators, env2: Collaborators)
    requires UpdatePreviews(repo, env1).result.Success?
    ensures var first := UpdatePreviews(repo, env1);
            var second := UpdatePreviews(first.repo, env2);
            forall t | t in Targets(second.calls) ::
              t in repo && t.squarePreviewPath.None? && env1.setPreview(t).Failure?
  {
    var first := UpdatePreviews(repo, env1);
    SuccessLeavesOnlyFailures(repo, env1);
    UpdatePreviewsTrace(first.repo, env2);
    var second := UpdatePreviews(first.repo, env2);
    forall t | t in Targets(second.calls)
      ensures t in repo && t.squarePreviewPath.None? && env1.setPreview(t).Failure?
    {
      var i :| 0 <= i < |first.repo| && first.repo[i] == t;
      assert repo[i] == t;
    }
  }

  /** If the first batch succeeded and rendered every missing preview, a
      second batch makes no call at all. */
  lemma SecondRunIdleWhenAllRendered(repo: Repository, env1: Collaborators, env2: Collaborators)
    requires UpdatePreviews(repo, env1).result.Success?
    requires forall p | p in repo && p.squarePreviewPath.None? :: env1.setPreview(p).Success?
    ensures UpdatePreviews(UpdatePreviews(repo, env1).repo, env2).calls == []
  {
    var first := UpdatePreviews(repo, env1);
    SecondRunRetriesOnlyFailures(repo, env1, env2);
    var second := UpdatePreviews(first.repo, env2);
    if second.calls != [] {
      FirstCallHasTarget(first.repo, env2);
      assert false;
    }
  }

  /** A batch that makes any call hands the previewer a record first. */
  lemma FirstCallHasTarget(repo: Repository, env: Collaborators)
    ensures var r := UpdatePreviews(repo, env);
            r.calls != [] ==> r.calls[0].SetPreviewOn? && r.calls[0].target in Targets(r.calls)
  {
    PreviewEachProtocol(WithoutPreview(repo), repo, env);
  }

  /** Three records, the first and last without a preview, whose previews
      render and persist: the previewer runs twice and `add_preview` runs
      twice, each on the right record. */
  lemma TwoOfThreeMissing(x: Picture, y: Picture, z: Picture, env: Collaborators)
    requires x.squarePreviewPath.None? && y.squarePreviewPath.Some? && z.squarePreviewPath.None?
    requires !env.allFails
    requires env.setPreview(x).Success? && env.setPreview(z).Success?
    requires !env.addPreviewFails(WithPreviewPath(x, env.setPreview(x).value))
    requires !env.addPreviewFails(WithPreviewPath(z, env.setPreview(z).value))
    ensures var r := UpdatePreviews([x, y, z], env);
            && r.result.Success?
            && r.calls == [SetPreviewOn(x), AddPreviewOf(WithPreviewPath(x, env.setPreview(x).value)),
                           SetPreviewOn(z), AddPreviewOf(WithPreviewPath(z, env.setPreview(z).value))]
  {
    var repo := [x, y, z];
    var a := WithPreviewPath(x, env.setPreview(x).value);
    var c := WithPreviewPath(z, env.setPreview(z).value);
    SkipsThePreviewed(x, y, z);
    assert PreviewEach([x, z], repo, env).result.Success?
        && PreviewEach([x, z], repo, env).calls
           == [SetPreviewOn(x), AddPreviewOf(a), SetPreviewOn(z), AddPreviewOf(c)] by {
      var afterA := AddPreview(repo, a, env).value;
      PreviewEachPersistedHead([z], afterA, env);
      var afterC := AddPreview(afterA, c, env).value;
      assert [z][1..] == [];
      assert PreviewEach([], afterC, env) == Run([], afterC, Success(()));
      assert PreviewEach([z], afterA, env) == Run([SetPreviewOn(z), AddPreviewOf(c)], afterC, Success(()));
      PreviewEachPersistedHead([x, z], repo, env);
      assert [x, z][1..] == [z];
      assert [SetPreviewOn(x), AddPreviewOf(a)] + [SetPreviewOn(z), AddPreviewOf(c)]
          == [SetPreviewOn(x), AddPreviewOf(a), SetPreviewOn(z), AddPreviewOf(c)];
    }
  }

  /** Filtering keeps exactly the two records without a preview. */
  lemma SkipsThePreviewed(x: Picture, y: Picture, z: Picture)
    requires x.squarePreviewPath.None? && y.squarePreviewPath.Some? && z.squarePreviewPath.None?
    ensures WithoutPreview([x, y, z]) == [x, z]
  {
    assert [z][1..] == [];
    assert WithoutPreview([z]) == [z];
    assert [y, z][1..] == [z];
    assert WithoutPreview([y, z]) == [z];
    assert [x, y, z][1..] == [y, z];
  }

  /** A first record whose preview renders and persists contributes exactly
      its two calls before the rest of the loop. */
  lemma PreviewEachPersistedHead(pics: seq<Picture>, repo: Repository, env: Collaborators)
    requires pics != [] && env.setPreview(pics[0]).Success?
    requires !env.addPreviewFails(WithPreviewPath(pics[0], env.setPreview(pics[0]).value))
    ensures var updated := WithPreviewPath(pics[0], env.setPreview(pics[0]).value);
            && AddPreview(repo, updated, env).Success?
            && PreviewEach(pics, repo, env)
               == After([SetPreviewOn(pics[0]), AddPreviewOf(updated)],
                        PreviewEach(pics[1..], AddPreview(repo, updated, env).value, env))
  {
  }

  // ---------------------------------------------------------------------
  // The loop as the source writes it

  /** The run `r` with `calls` made before it. */
  function After(calls: seq<Call>, r: Run): Run {
    Run(calls + r.calls, r.repo, r.result)
  }

  /** Calls made before calls made before a run are made before it. */
  lemma AfterAfter(first: seq<Call>, second: seq<Call>, r: Run)
    ensures After(first, After(second, r)) == After(first + second, r)
  {
  }

  /** The `for` loop of `update_previews`, with `continue` on a previewer
      failure and an early return on a persisting failure; it computes
      exactly the run `PreviewEach` describes. */
  method PreviewEachLoop(pics: seq<Picture>, repo: Repository, env: Collaborators) returns (run: Run)
    ensures run == PreviewEach(pics, repo, env)
  {
    var calls: seq<Call> := [];
    var current := repo;
    var k := 0;
    while k < |pics|
      invariant 0 <= k <= |pics|
      invariant PreviewEach(pics, repo, env) == After(calls, PreviewEach(pics[k..], current, env))
    {
      var pic := pics[k];
      assert pics[k..][0] == pic && pics[k..][1..] == pics[k + 1..];
      var rendered := env.setPreview(pic);
      if rendered.Failure? {
        // logged, and the record is skipped
        assert PreviewEach(pics[k..], current, env)
            == After([SetPreviewOn(pic)], PreviewEach(pics[k + 1..], current, env));
        AfterAfter(calls, [SetPreviewOn(pic)], PreviewEach(pics[k + 1..], current, env));
        calls := calls + [SetPreviewOn(pic)];
        k := k + 1;
        continue;
      }
      var updated := WithPreviewPath(pic, rendered.value);
      var persisted := AddPreview(current, updated, env);
      if persisted.Failure? {
        assert PreviewEach(pics[k..], current, env)
            == Run([SetPreviewOn(pic), AddPreviewOf(updated)], current, Failure(persisted.error));
        return Run(calls + [SetPreviewOn(pic), AddPreviewOf(updated)], current, Failure(persisted.error));
      }
      assert PreviewEach(pics[k..], current, env)
          == After([SetPreviewOn(pic), AddPreviewOf(updated)], PreviewEach(pics[k + 1..], persisted.value, env));
      AfterAfter(calls, [SetPreviewOn(pic), AddPreviewOf(updated)], PreviewEach(pics[k + 1..], persisted.value, env));
      calls := calls + [SetPreviewOn(pic), AddPreviewOf(updated)];
      current := persisted.value;
      k := k + 1;
    }
    assert pics[k..] == [];
    return Run(calls, current, Success(()));
  }

  /** `update_previews` as the source writes it: read the snapshot, filter
      it, run the loop. */
  method UpdatePreviewsLoop(repo: Repository, env: Collaborators) returns (run: Run)
    ensures run == UpdatePreviews(repo, env)
  {
    var snapshot := All(repo, env);
    if snapshot.Failure? {
      return Run([], repo, Failure(snapshot.error));
    }
    var pics := WithoutPreview(snapshot.value);
    run := PreviewEachLoop(pics, repo, env);
  }
}

=== FILE: paths.dfy ===
/** The two `std::path::Path` queries the property panel uses, over a path
    given as the component sequence `Path::components` yields. */
module Paths {
  import opened Wrappers

  datatype Component = Prefix(text: string) | RootDir | CurDir | ParentDir | Normal(name: string)

  type Path = seq<Component>

  /** `Path::parent`: the path without its last component, unless the path is
      empty or ends in a root or prefix. */
  function Parent(p: Path): (r: Option<Path>)
    ensures r.Some? <==> |p| > 0 && !p[|p| - 1].RootDir? && !p[|p| - 1].Prefix?
    ensures r.Some? ==> r.value + [p[|p| - 1]] == p
  {
    if |p| == 0 then None
    else
      match p[|p| - 1]
      case Normal(_) => Some(p[..|p| - 1])
      case CurDir => Some(p[..|p| - 1])
      case ParentDir => Some(p[..|p| - 1])
      case _ => None
  }

  /** `Path::file_name`: the last component when it is a normal name. */
  function FileName(p: Path): (r: Option<string>)
    ensures r.Some? <==> |p| > 0 && p[|p| - 1].Normal?
    ensures r.Some? ==> p[|p| - 1] == Normal(r.value)
  {
    if |p| > 0 && p[|p| - 1].Normal? then Some(p[|p| - 1].name) else None
  }

  /** `Path::join` of a single file name. */
  function Join(p: Path, name: string): Path {
    p + [Normal(name)]
  }

  /** Joining a name and asking for parent and file name gives both parts
      back. */
  lemma JoinSplits(p: Path, name: string)
    ensures Parent(Join(p, name)) == Some(p)
    ensures FileName(Join(p, name)) == Some(name)
  {
    assert Join(p, name)[..|p|] == p;
  }
}

=== FILE: photo_info.dfy ===
/** The decision logic of the property panel in `photo_info.rs`: which rows
    show a value, which groups of rows are visible, and which groups a
    message updates. A widget is reduced to what the panel sets on it; file
    system reads, metadata parsing and the formatting of dates and sizes are
    foreign, and reach the panel only as the values an `Environment`
    returns. */
module PhotoInfo {
  import opened Wrappers
  import opened Paths

  type VisualId = nat

  /** An `adw::ActionRow`: its subtitle and whether it is shown. */
  datatype Row = Row(subtitle: string, visible: bool)

  /** The `adw::PreferencesGroup`s of the panel with their rows. */
  datatype DateTimeGroup = DateTimeGroup(visible: bool, createdAt: Row, modifiedAt: Row)

  datatype ImageGroup = ImageGroup(visible: bool, imageSize: Row, imageFormat: Row, fileSize: Row)

  datatype ExifGroup = ExifGroup(visible: bool, originallyCreatedAt: Row, originallyModifiedAt: Row)

  datatype VideoGroup = VideoGroup(
    visible: bool, duration: Row, fileSize: Row, originallyCreatedAt: Row, containerFormat: Row)

  datatype Panel = Panel(
    folder: Row, dateTime: DateTimeGroup, image: ImageGroup, exif: ExifGroup, video: VideoGroup)

  /** A library item: a picture, a video, or both. `path` is what
      `Visual::path` returns. */
  datatype Visual = Visual(
    pictureId: Option<nat>, videoId: Option<nat>,
    picturePath: Option<Path>, videoPath: Option<Path>,
    parentPath: Path, path: Option<Path>)

  /** What opening a file and reading its metadata yields, already rendered
      as text; a timestamp the platform cannot provide is absent. */
  datatype FileMetadata = FileMetadata(createdAt: Option<string>, modifiedAt: Option<string>, formattedSize: string)

  /** The dates parsed from an EXIF block, already rendered as text. */
  datatype ExifDates = ExifDates(createdAt: Option<string>, modifiedAt: Option<string>)

  /** The EXIF block of an image: absent, present but not readable in full,
      or readable, with its dates when they parse. */
  datatype Exif = NoExif | Unreadable | Readable(parsed: Option<ExifDates>)

  /** The decoder's description of an image. */
  datatype ImageInfo = ImageInfo(width: nat, height: nat, formatName: Option<string>, exif: Exif)

  /** Video container metadata, already rendered as text. */
  datatype VideoMetadata = VideoMetadata(
    createdAt: Option<string>, duration: Option<string>, containerFormat: Option<string>)

  /** The panel's foreign inputs: the library lookup, file metadata (absent
      when the file cannot be opened or stat'ed), and video metadata (absent
      when it cannot be read). */
  datatype Environment = Environment(
    library: VisualId -> Option<Visual>,
    fileMetadata: Path -> Option<FileMetadata>,
    videoMetadata: Path -> Option<VideoMetadata>)

  datatype PhotoInfoInput = Photo(id: VisualId, info: ImageInfo) | Video(id: VisualId)

  /** Why a details update stopped early. */
  datatype DetailsError = NoPath | IoFailed

  /** A panel after a details update, and whether the update ran to the end. */
  datatype Updated = Updated(panel: Panel, result: Result<(), DetailsError>)

  /** Subtitle of a row with no value: an en dash. */
  const Fallback: string := "–"

  // ---------------------------------------------------------------------
  // Rows

  /** `update_row`: a row shows its value when there is one and is hidden
      behind the fallback subtitle otherwise; the result says whether it is
      shown. Whatever the row showed before is overwritten. */
  function UpdateRow(value: Option<string>): (r: (Row, bool))
    ensures r.1 <==> value.Some?
    ensures r.0.visible == r.1
    ensures value.Some? ==> r.0.subtitle == value.value
    ensures value.None? ==> r.0.subtitle == Fallback
  {
    match value
    case Some(v) => (Row(v, true), true)
    case None => (Row(Fallback, false), false)
  }

  /** Updates one row per value, every one of them, and reports whether any
      is shown: the `[update_row(..), ..].into_iter().any(|x| x)` idiom that
      decides a group's visibility. */
  function UpdateRows(values: seq<Option<string>>): (r: (seq<Row>, bool))
    ensures |r.0| == |values|
    ensures forall i | 0 <= i < |values| :: r.0[i] == UpdateRow(values[i]).0
    ensures r.1 <==> exists i | 0 <= i < |values| :: values[i].Some?
    ensures r.1 <==> exists i | 0 <= i < |r.0| :: r.0[i].visible
    decreases |values|
  {
    if values == [] then ([], false)
    else
      var first := UpdateRow(values[0]);
      var rest := UpdateRows(values[1..]);
      assert forall i | 1 <= i < |values| :: values[i] == values[1..][i - 1];
      ([first.0] + rest.0, first.1 || rest.1)
  }

  /** `folder_name`: the last component of the path's parent. */
  function FolderName(p: Path): (r: Option<string>)
    ensures r.Some? <==>
              && |p| >= 2
              && !p[|p| - 1].RootDir? && !p[|p| - 1].Prefix?
              && p[|p| - 2].Normal?
    ensures r.Some? ==> r.value == p[|p| - 2].name
  {
    match Parent(p)
    case None => None
    case Some(parent) => FileName(parent)
  }

  /** The folder name of a file joined onto a directory is the directory's
      own name. */
  lemma FolderOfJoinedFile(dir: Path, file: string)
    ensures FolderName(Join(dir, file)) == FileName(dir)
  {
    JoinSplits(dir, file);
  }

  // ---------------------------------------------------------------------
  // Details groups

  /** `update_file_details`: without a path nothing changes; otherwise the
      folder row is updated, and when the file's metadata can be read the
      date/time rows are too, the group being visible iff one of them is. */
  function UpdateFileDetails(panel: Panel, vis: Visual, env: Environment): (r: Updated)
    ensures vis.path.None? ==> r == Updated(panel, Failure(NoPath))
    ensures vis.path.Some? ==> r.panel.folder == UpdateRow(FolderName(vis.parentPath)).0
    ensures r.panel.image == panel.image && r.panel.exif == panel.exif && r.panel.video == panel.video
    ensures r.result.Success? <==> vis.path.Some? && env.fileMetadata(vis.path.value).Some?
    ensures r.result.Failure? ==> r.panel.dateTime == panel.dateTime
    ensures r.result.Success? ==>
              var md := env.fileMetadata(vis.path.value).value;
              && r.panel.dateTime.createdAt == UpdateRow(md.createdAt).0
              && r.panel.dateTime.modifiedAt == UpdateRow(md.modifiedAt).0
              && (r.panel.dateTime.visible <==> md.createdAt.Some? || md.modifiedAt.Some?)
              && (r.panel.dateTime.visible <==>
                    r.panel.dateTime.createdAt.visible || r.panel.dateTime.modifiedAt.visible)
  {
    match vis.path
    case None => Updated(panel, Failure(NoPath))
    case Some(path) =>
      var withFolder := panel.(folder := UpdateRow(FolderName(vis.parentPath)).0);
      match env.fileMetadata(path)
      case None => Updated(withFolder, Failure(IoFailed))
      case Some(md) =>
        var rows := UpdateRows([md.createdAt, md.modifiedAt]);
        Updated(withFolder.(dateTime := DateTimeGroup(rows.1, rows.0[0], rows.0[1])), Success(()))
  }

  /** The "W x H" text of the image-size row: the width's digits, " x ",
      then the height's digits, each reading back as its dimension. */
  function ImageSizeText(info: ImageInfo): (r: string)
    ensures var n := |Decimal(info.width)|;
            && |r| > n + 3
            && (forall i | 0 <= i < n :: '0' <= r[i] <= '9')
            && r[n..n + 3] == " x "
            && (forall i | n + 3 <= i < |r| :: '0' <= r[i] <= '9')
            && DecimalValue(r[..n]) == info.width
            && DecimalValue(r[n + 3..]) == info.height
  {
    var w := Decimal(info.width);
    var h := Decimal(info.height);
    DecimalRoundTrip(info.width);
    DecimalRoundTrip(info.height);
    var r := w + " x " + h;
    assert r[..|w|] == w && r[|w| + 3..] == h;
    r
  }

  /** The EXIF dates the panel displays: present only when the EXIF block is
      readable and its dates parse. */
  function ExifCreatedAt(info: ImageInfo): (r: Option<string>)
    ensures r.Some? ==> info.exif.Readable? && info.exif.parsed.Some?
    ensures info.exif.Readable? && info.exif.parsed.Some? ==> r == info.exif.parsed.value.createdAt
  {
    if info.exif.Readable? && info.exif.parsed.Some? then info.exif.parsed.value.createdAt else None
  }

  function ExifModifiedAt(info: ImageInfo): (r: Option<string>)
    ensures r.Some? ==> info.exif.Readable? && info.exif.parsed.Some?
    ensures info.exif.Readable? && info.exif.parsed.Some? ==> r == info.exif.parsed.value.modifiedAt
  {
    if info.exif.Readable? && info.exif.parsed.Some? then info.exif.parsed.value.modifiedAt else None
  }

  /** `update_photo_details`: without a picture path or readable file
      metadata nothing changes. Otherwise the image group is always shown,
      since its size row always has a value, and the EXIF group is visible iff
      the image has a readable EXIF block with one of its dates; without one
      the EXIF group is hidden and its rows are left as they were. */
  function UpdatePhotoDetails(panel: Panel, vis: Visual, info: ImageInfo, env: Environment): (r: Updated)
    ensures r.result.Success? <==> vis.picturePath.Some? && env.fileMetadata(vis.picturePath.value).Some?
    ensures r.result.Failure? ==> r.panel == panel
    ensures r.panel.folder == panel.folder && r.panel.dateTime == panel.dateTime && r.panel.video == panel.video
    ensures r.result.Success? ==>
              && r.panel.image.visible
              && r.panel.image.imageSize == Row(ImageSizeText(info), true)
              && r.panel.image.fileSize ==
                   Row(env.fileMetadata(vis.picturePath.value).value.formattedSize, true)
              && r.panel.image.imageFormat == UpdateRow(info.formatName).0
              && (r.panel.image.imageFormat.visible <==> info.formatName.Some?)
    ensures r.result.Success? && !info.exif.Readable? ==>
              r.panel.exif == panel.exif.(visible := false)
    ensures r.result.Success? && info.exif.Readable? ==>
              && r.panel.exif.originallyCreatedAt == UpdateRow(ExifCreatedAt(info)).0
              && r.panel.exif.originallyModifiedAt == UpdateRow(ExifModifiedAt(info)).0
              && (r.panel.exif.visible <==> ExifCreatedAt(info).Some? || ExifModifiedAt(info).Some?)
              && (r.panel.exif.visible <==>
                    r.panel.exif.originallyCreatedAt.visible || r.panel.exif.originallyModifiedAt.visible)
  {
    match vis.picturePath
    case None => Updated(panel, Failure(NoPath))
    case Some(picturePath) =>
      match env.fileMetadata(picturePath)
      case None => Updated(panel, Failure(IoFailed))
      case Some(md) =>
        var imageRows := UpdateRows([Some(ImageSizeText(info)), info.formatName, Some(md.formattedSize)]);
        var withImage := panel.(image := ImageGroup(imageRows.1, imageRows.0[0], imageRows.0[1], imageRows.0[2]));
        if info.exif.Readable? then
          var exifRows := UpdateRows([ExifCreatedAt(info), ExifModifiedAt(info)]);
          Updated(withImage.(exif := ExifGroup(exifRows.1, exifRows.0[0], exifRows.0[1])), Success(()))
        else
          Updated(withImage.(exif := withImage.exif.(visible := false)), Success(()))
  }

  /** `update_video_details`: without a video path nothing changes;
      otherwise the created, duration and container rows are updated from
      the video's metadata (all hidden when it cannot be read), the file-size
      row is left alone, and the group is visible iff one of the three rows
      is. */
  function UpdateVideoDetails(panel: Panel, vis: Visual, env: Environment): (r: Updated)
    ensures r.result.Success? <==> vis.videoPath.Some?
    ensures r.result.Failure? ==> r.panel == panel
    ensures r.panel.folder == panel.folder && r.panel.dateTime == panel.dateTime
    ensures r.panel.image == panel.image && r.panel.exif == panel.exif
    ensures r.panel.video.fileSize == panel.video.fileSize
    ensures r.result.Success? && env.videoMetadata(vis.videoPath.value).Some? ==>
              var md := env.videoMetadata(vis.videoPath.value).value;
              && r.panel.video.originallyCreatedAt == UpdateRow(md.createdAt).0
              && r.panel.video.duration == UpdateRow(md.duration).0
              && r.panel.video.containerFormat == UpdateRow(md.containerFormat).0
    ensures r.result.Success? && env.videoMetadata(vis.videoPath.value).None? ==>
              && r.panel.video.originallyCreatedAt == Row(Fallback, false)
              && r.panel.video.duration == Row(Fallback, false)
              && r.panel.video.containerFormat == Row(Fallback, false)
    ensures r.result.Success? ==>
              var md := env.videoMetadata(vis.videoPath.value);
              && (r.panel.video.visible <==>
                    md.Some? && (md.value.createdAt.Some? || md.value.duration.Some? || md.value.containerFormat.Some?))
              && (r.panel.video.visible <==>
                    || r.panel.video.originallyCreatedAt.visible
                    || r.panel.video.duration.visible
                    || r.panel.video.containerFormat.visible)
  {
    match vis.videoPath
    case None => Updated(panel, Failure(NoPath))
    case Some(videoPath) =>
      var md := env.videoMetadata(videoPath);
      var createdAt := if md.Some? then md.value.createdAt else None;
      var duration := if md.Some? then md.value.duration else None;
      var containerFormat := if md.Some? then md.value.containerFormat else None;
      var rows := UpdateRows([createdAt, duration, containerFormat]);
      Updated(
        panel.(video := panel.video.(
          visible := rows.1, originallyCreatedAt := rows.0[0], duration := rows.0[1], containerFormat := rows.0[2])),
        Success(()))
  }

  // ---------------------------------------------------------------------
  // Messages

  /** `update`: an unknown item changes nothing. A photo message updates the
      file details, then the photo details iff the item has a picture and the
      video details iff it has a video. A video message first hides the image
      and EXIF groups, then updates the file details and, iff the item has a
      video, the video details. The details' own errors are ignored. */
  function Update(panel: Panel, msg: PhotoInfoInput, env: Environment): (r: Panel)
    ensures env.library(msg.id).None? ==> r == panel
    ensures env.library(msg.id).Some? ==>
              var vis := env.library(msg.id).value;
              && (vis.path.Some? ==> r.folder == UpdateRow(FolderName(vis.parentPath)).0)
              && (vis.videoId.None? ==> r.video == panel.video)
              && (vis.videoId.Some? && vis.videoPath.Some? ==>
                    var md := env.videoMetadata(vis.videoPath.value);
                    (r.video.visible <==>
                       md.Some? && (md.value.createdAt.Some? || md.value.duration.Some? || md.value.containerFormat.Some?)))
    ensures env.library(msg.id).Some? ==>
              var details := UpdateFileDetails(panel, env.library(msg.id).value, env).panel;
              r.folder == details.folder && r.dateTime == details.dateTime
    ensures env.library(msg.id).Some? && env.library(msg.id).value.videoId.Some? ==>
              r.video == UpdateVideoDetails(panel, env.library(msg.id).value, env).panel.video
    ensures msg.Photo? && env.library(msg.id).Some? && env.library(msg.id).value.pictureId.Some? ==>
              var details := UpdatePhotoDetails(panel, env.library(msg.id).value, msg.info, env).panel;
              r.image == details.image && r.exif == details.exif
    ensures msg.Video? && env.library(msg.id).Some? ==>
              r.image == panel.image.(visible := false) && r.exif == panel.exif.(visible := false)
    ensures msg.Photo? && env.library(msg.id).Some? ==>
              var vis := env.library(msg.id).value;
              && (vis.pictureId.None? ==> r.image == panel.image && r.exif == panel.exif)
              && (vis.pictureId.Some? && vis.picturePath.Some? && env.fileMetadata(vis.picturePath.value).Some? ==>
                    r.image.visible && (r.exif.visible ==> msg.info.exif.Readable?))
  {
    match msg
    case Photo(id, info) =>
      (match env.library(id)
       case None => panel
       case Some(vis) =>
         var withFile := UpdateFileDetails(panel, vis, env).panel;
         var withPhoto := if vis.pictureId.Some? then UpdatePhotoDetails(withFile, vis, info, env).panel else withFile;
         if vis.videoId.Some? then UpdateVideoDetails(withPhoto, vis, env).panel else withPhoto)
    case Video(id) =>
      match env.library(id)
      case None => panel
      case Some(vis) =>
        var hidden := panel.(image := panel.image.(visible := false), exif := panel.exif.(visible := false));
        var withFile := UpdateFileDetails(hidden, vis, env).panel;
        if vis.videoId.Some? then UpdateVideoDetails(withFile, vis, env).panel else withFile
  }

  // ---------------------------------------------------------------------
  // Decimal text of the image dimensions

  function DigitChar(d: nat): char
    requires d < 10
  {
    "0123456789"[d]
  }

  function DigitValue(c: char): nat
    requires '0' <= c <= '9'
  {
    (c as int - '0' as int) as nat
  }

  /** Rust's `Display` of an unsigned integer. */
  function Decimal(n: nat): (s: string)
    ensures |s| > 0
    ensures forall i | 0 <= i < |s| :: '0' <= s[i] <= '9'
    ensures s[0] == '0' ==> n == 0
    decreases n
  {
    if n < 10 then [DigitChar(n)] else Decimal(n / 10) + [DigitChar(n % 10)]
  }

  /** The number a string of digits denotes. */
  function DecimalValue(s: string): nat
    requires forall i | 0 <= i < |s| :: '0' <= s[i] <= '9'
    decreases |s|
  {
    if s == [] then 0 else DecimalValue(s[..|s| - 1]) * 10 + DigitValue(s[|s| - 1])
  }

  /** The decimal text reads back as the number it was made from. */
  lemma {:induction false} DecimalRoundTrip(n: nat)
    ensures DecimalValue(Decimal(n)) == n
    decreases n
  {
    if n >= 10 {
      DecimalRoundTrip(n / 10);
      var s := Decimal(n);
      assert s[..|s| - 1] == Decimal(n / 10);
    }
  }
}

=== FILE: progress_monitor.dfy ===
/** The progress monitor of `progress_monitor.rs`: a reducer over
    `(task_name, current_count, end_count)` that tells its subscribers
    whether to refresh after every input. Counts are `usize` in the source and
    `nat` here; the overflow of `current_count += 1` is not modelled. */
module Progress {

  datatype MediaType = Photo | Video

  /** The kinds of background task that have a progress bar. */
  datatype TaskName = Thumbnail(media: MediaType) | Transcode | Idle

  datatype ProgressMonitorInput = Start(task: TaskName, count: nat) | Advance | Complete | Idle

  datatype ProgressMonitor = ProgressMonitor(taskName: TaskName, currentCount: nat, endCount: nat)

  /** The result of one reduce step: the new state, and whether subscribers
      are notified. */
  datatype Reduction = Reduction(monitor: ProgressMonitor, notify: bool)

  /** The state in which no task is being tracked. */
  predicate IsIdle(m: ProgressMonitor) {
    m.taskName == TaskName.Idle && m.currentCount == 0 && m.endCount == 0
  }

  /** A state whose progress has not passed its end. */
  predicate WithinBounds(m: ProgressMonitor) {
    m.currentCount <= m.endCount
  }

  function Init(): (m: ProgressMonitor)
    ensures IsIdle(m)
  {
    ProgressMonitor(TaskName.Idle, 0, 0)
  }

  function Reduce(m: ProgressMonitor, input: ProgressMonitorInput): (r: Reduction)
    // every input is reported to subscribers
    ensures r.notify
    // Start forgets the previous task entirely
    ensures input.Start? ==>
              && r.monitor.taskName == input.task
              && r.monitor.endCount == input.count
              && r.monitor.currentCount == 0
    // Advance and Complete keep the task and its end
    ensures (input.Advance? || input.Complete?) ==>
              r.monitor.taskName == m.taskName && r.monitor.endCount == m.endCount
    ensures input.Advance? ==> r.monitor.currentCount == m.currentCount + 1
    ensures input.Complete? ==> r.monitor.currentCount == r.monitor.endCount
    ensures input.Idle? ==> IsIdle(r.monitor)
  {
    var next :=
      match input
      case Start(task, count) => ProgressMonitor(task, 0, count)
      case Advance => m.(currentCount := m.currentCount + 1)
      case Complete => m.(currentCount := m.endCount)
      case Idle => ProgressMonitor(TaskName.Idle, 0, 0);
    Reduction(next, true)
  }

  /** Feeds `inputs` to the reducer in order. */
  function Run(m: ProgressMonitor, inputs: seq<ProgressMonitorInput>): ProgressMonitor
    decreases |inputs|
  {
    if inputs == [] then m else Run(Reduce(m, inputs[0]).monitor, inputs[1..])
  }

  /** The notification flags returned along a run, one per input. */
  function Notifications(m: ProgressMonitor, inputs: seq<ProgressMonitorInput>): seq<bool>
    decreases |inputs|
  {
    if inputs == [] then []
    else [Reduce(m, inputs[0]).notify] + Notifications(Reduce(m, inputs[0]).monitor, inputs[1..])
  }

  function Advances(n: nat): (s: seq<ProgressMonitorInput>)
    ensures |s| == n
    ensures forall i | 0 <= i < n :: s[i] == Advance
  {
    if n == 0 then [] else [Advance] + Advances(n - 1)
  }

  /** Fraction of the task done. The source divides two `f64`s and yields NaN
      or infinity when `end_count` is 0; only the defined case is modelled. */
  function Fraction(m: ProgressMonitor): (f: real)
    requires m.endCount > 0
    ensures WithinBounds(m) <==> 0.0 <= f <= 1.0
    ensures f == 1.0 <==> m.currentCount == m.endCount
  {
    var f := m.currentCount as real / m.endCount as real;
    assert f * m.endCount as real == m.currentCount as real;
    f
  }

  /** The Idle input brings any state back to exactly the initial one. */
  lemma IdleRestoresInit(m: ProgressMonitor)
    ensures Reduce(m, ProgressMonitorInput.Idle).monitor == Init()
  {
  }

  /** Start's outcome does not depend on the state it is applied to. */
  lemma StartForgetsHistory(m1: ProgressMonitor, m2: ProgressMonitor, task: TaskName, count: nat)
    ensures Reduce(m1, Start(task, count)).monitor == Reduce(m2, Start(task, count)).monitor
  {
  }

  /** Completing twice is the same as completing once. */
  lemma CompleteIdempotent(m: ProgressMonitor)
    ensures var once := Reduce(m, Complete).monitor;
            Reduce(once, Complete).monitor == once
  {
  }

  /** Start, Complete and Idle always land inside the bounds; Advance stays
      inside exactly when the task was not yet finished, because the source
      does not clamp. */
  lemma BoundsPreserved(m: ProgressMonitor, input: ProgressMonitorInput)
    ensures !input.Advance? ==> WithinBounds(Reduce(m, input).monitor)
    ensures input.Advance? ==> (WithinBounds(Reduce(m, input).monitor) <==> m.currentCount < m.endCount)
  {
  }

  /** An Advance after a zero-length Start moves the count past the end. */
  lemma AdvanceMayPassEnd(task: TaskName)
    ensures var m := Reduce(Reduce(Init(), Start(task, 0)).monitor, Advance).monitor;
            m.currentCount == 1 && m.endCount == 0 && !WithinBounds(m)
  {
  }

  /** Every input of every run notifies the subscribers. */
  lemma {:induction false} EveryInputNotifies(m: ProgressMonitor, inputs: seq<ProgressMonitorInput>)
    ensures |Notifications(m, inputs)| == |inputs|
    ensures forall i | 0 <= i < |inputs| :: Notifications(m, inputs)[i]
    decreases |inputs|
  {
    if inputs != [] {
      EveryInputNotifies(Reduce(m, inputs[0]).monitor, inputs[1..]);
    }
  }

  /** `n` Advances add exactly `n` to the count and change nothing else. */
  lemma {:induction false} AdvancesAddCount(m: ProgressMonitor, n: nat)
    ensures Run(m, Advances(n)) == m.(currentCount := m.currentCount + n)
    decreases n
  {
    if n > 0 {
      assert Advances(n)[1..] == Advances(n - 1);
      AdvancesAddCount(m.(currentCount := m.currentCount + 1), n - 1);
    }
  }

  /** Starting a task of `n` steps and advancing `n` times ends where starting
      it and completing it ends: at `current_count == end_count == n`. */
  lemma StartThenAdvancesEqualsComplete(m: ProgressMonitor, task: TaskName, n: nat)
    ensures var started := Reduce(m, Start(task, n)).monitor;
            && Run(started, Advances(n)) == Reduce(started, Complete).monitor
            && Run(started, Advances(n)) == ProgressMonitor(task, n, n)
  {
    AdvancesAddCount(Reduce(m, Start(task, n)).monitor, n);
  }

  /** A photo thumbnail task of 10 steps, advanced 10 times, is fully done;
      going Idle afterwards resets every field. */
  lemma TenPhotoThumbnails(m: ProgressMonitor)
    ensures var done := Run(Reduce(m, Start(Thumbnail(Photo), 10)).monitor, Advances(10));
            && done.currentCount == 10
            && done.endCount == 10
            && Fraction(done) == 1.0
            && IsIdle(Reduce(done, ProgressMonitorInput.Idle).monitor)
  {
    StartThenAdvancesEqualsComplete(m, Thumbnail(Photo), 10);
  }
}

=== FILE: wrappers.dfy ===
/** Failure-carrying datatypes shared by the other modules: Rust's `Option`
    and `Result`. */
module Wrappers {

  datatype Option<+T> = None | Some(value: T)

  datatype Result<+T, +E> = Success(value: T) | Failure(error: E)
}
